=== FILE: README.md ===
# batti: a Dafny model of the battery applet's core

batti is a small status-tray applet. It shows one UPower battery device
(`/org/freedesktop/UPower/devices/battery_BAT0`) as a tray icon with a
tooltip. A click opens `upower -i` in a terminal, and the context click
opens `upower --monitor-detail`. The program is one C file, `batti.c`.
Most of it is GTK and D-Bus glue. This project models the sequential core
inside that glue as pure Dafny functions over immutable values:

- `StateLabel`: `state_to_string`, which maps a `guint32` UPower state
  code to one of seven labels.
- `IconName`: the icon-name truncation, `IconName.StripIconSuffix`. The
  code writes a NUL `sizeof NOT_SIMBOLIC_ICON` (= 9) bytes before the end
  of the duplicated string and keeps the C string that is left.
- `Decimal` and `Tooltip`: the `"%u%% (%s)"` tooltip, `Tooltip.Format`,
  which is written into the 64-byte `tooltip_text` buffer.
  `Decimal.Render` is the `%u` numeral. `Tooltip.Parse` reads a tooltip
  back, and is used to state round trips.
- `Presentation`: the two GTK calls the core makes, as `SetIcon` and
  `SetTooltip` command values, and the icon and tooltip that those calls
  leave on show.
- `Properties`: `on_properties_changed` as `Properties.ProcessBatch`, a
  fold of `Properties.ApplyEntry` over the changed `(key, value)` entries
  in iteration order. It works on the applet record
  `{percentage, state_string}` and emits zero or one command per entry.
- `Startup`: `init`, as `Startup.Init`. It either fails to create the
  proxy, or seeds the applet from the cached properties and shows the
  icon and the first tooltip.
- `ChildSlots`: `activate_cb` and `popup_cb` as `ChildSlots.Trigger`,
  `child_watch_cb` as the `ChildExited` case of `ChildSlots.Step`, and a
  sequence of events on one slot as `ChildSlots.Run`. Each of the two
  actions owns a `GPid` variable (`ChildSlots.StepSlots`). The value 0
  means idle. A trigger spawns only from 0, and the child's exit puts 0
  back.
- `Tray`: `main` as `Tray.Main` (exit status 1 when `init` fails,
  otherwise both slots idle), one handler run per event as
  `Tray.Dispatch`, and the event loop as `Tray.RunEvents`.

`GLib` holds the C widths: `guint` values lie below 2^32 and `gsize`
arithmetic wraps modulo 2^64. It also holds an `Option` type.

Foreign calls become parameters. Proxy creation is a `ProxyOutcome`, the
values arrive already decoded, and spawning is a `SpawnOutcome`, where a
success carries a positive pid.

Points where the code's behaviour is easy to misread:

- **Icon-name truncation.** The code drops the last 9 bytes of the name
  without looking at them, so the suffix is removed only because UPower's
  names end in a 9-byte "-symbolic". For a name shorter than 9 bytes,
  `length - 9` wraps around in `gsize`, and the NUL is written out of
  bounds, before the start of the buffer. `StripIconSuffix` therefore requires at least 9 characters, and
  `ShortNameWritesOutOfBounds` shows the wrapped index.
- **Order of entries in a batch.** The code handles the entries in the
  order the `a{sv}` iterator yields them. The fold takes them in sequence
  order, and "last entry wins" refers to that order.
- **Percentage range.** The code stores any `guint`, so the model allows
  any percentage below 2^32.
- **Spawn failure.** The code reports nothing when a spawn fails; the slot
  stays 0.

## Model

| member | source | states |
|---|---|---|
| StateLabel.StateToString | batti.c:77-97 | Codes 1 to 6 give "Charging", "Discharging", "Empty", "Fully charged", "Pending charge" and "Pending discharge". Code 0 and every code above 6 give "Unknown". The result is always one of the seven labels. |
| StateLabel.LabelIdentifiesCode | batti.c:77-97 | The label determines the code: it gives back the code for 0..6 and 0 for every unknown code. The seven labels are pairwise distinct. |
| StateLabel.LabelLength | batti.c:81-95 | No label in the table `state_to_string` draws from is longer than 17 characters. |
| IconName.StripIconSuffix | batti.c:125-126 | Writing the NUL at `length - sizeof "simbolic"` into the duplicated, NUL-terminated string leaves exactly `|name| - 9` units (bytes in C, characters in the model; the same for ASCII names). Those characters, followed by the cut-off tail, are the original name. |
| IconName.StripRemovesAnyNineCharacterTail | batti.c:179-181 | For any base and any 9-character tail, the result is the base. The tail is removed whether or not it is "-simbolic" or "-symbolic". |
| IconName.StripExamples | batti.c:18 | "battery-full-simbolic" and "battery-full-symbolic" both become "battery-full". A 9-character name becomes "". |
| IconName.ShortNameWritesOutOfBounds | batti.c:112-126 | For a name shorter than 9 characters, the `gsize` index `length - 9` wraps around to a value beyond the last valid index, so the NUL is written out of bounds (as a pointer offset the wrapped index lands before the buffer). This is why the model requires at least 9 characters. |
| Decimal.Render | batti.c:137 | `%u` writes a canonical numeral: at least one digit, and no leading zero unless the number is 0. |
| Decimal.ValueOfRender | batti.c:137 | Reading back the digits `%u` writes gives the number. |
| Decimal.RenderOfValue | batti.c:137 | Every canonical numeral is what `%u` writes for the number it denotes, so the rendering is a bijection onto canonical numerals. |
| Decimal.RenderLength | batti.c:137 | A number below 10^k prints in at most k digits. |
| Decimal.RenderGUIntLength | batti.c:32 | Every `guint` percentage prints in at most 10 digits. |
| Decimal.RenderExamples | batti.c:199 | 100 prints as "100" and 55 prints as "55". |
| Tooltip.ParseFormat | batti.c:137-138 | Every tooltip parses back to the percentage and label it was made from, for any label. |
| Tooltip.ParseIffFormat | batti.c:145-146 | A text parses to (percentage, label) if and only if it is exactly the tooltip formatted from them. |
| Tooltip.FormatInjective | batti.c:199 | Two tooltips are equal only when their percentages and their labels are equal. |
| Tooltip.Format | batti.c:137-138 | The `"%u%% (%s)"` text for a percentage and a label. For every `guint` percentage and every label `state_to_string` returns, the text plus its NUL fits in the 64-byte `TOOLTIP_TEXT_SIZE` buffer (batti.c:26, 117), so the unbounded `g_sprintf` at batti.c:137, 145 and 199 cannot overflow. |
| Tooltip.FormatExamples | batti.c:199 | 100 with "Fully charged" formats as "100% (Fully charged)". 55 with "Fully charged" formats as "55% (Fully charged)". |
| Presentation.PresentConcat | batti.c:127-147 | Issuing two lists of GTK calls one after the other has the same effect as issuing their concatenation. |
| Presentation.PresentShowsLast | batti.c:127-147 | The icon on show is the one from the last icon call, and the tooltip on show is the one from the last tooltip call. Each kind of call leaves the other half of the display unchanged. |
| Properties.ApplyEntry | batti.c:122-148 | "IconName" emits one `SetIcon` with the truncated name and leaves both stored fields unchanged. "Percentage" changes only `percentage`; "State" changes only `state_string`. Each of those two emits exactly one tooltip, and that tooltip describes the new state. Any other key changes nothing and emits nothing. A valid label stays valid. |
| Properties.LastOfCons | batti.c:119-120 | Taking off the first entry of a batch changes only the fallback value of "last Percentage / State / IconName entry". This links the front-to-back iteration to the back-to-front reference definitions. |
| Properties.ProcessBatch | batti.c:99-151 | `on_properties_changed` as a fold in iteration order. After a batch, `percentage` holds the value of the last "Percentage" entry, or the prior value if there is none, and `state_string` holds the label of the last "State" entry, or the prior label if there is none. The batch emits exactly one command per recognised entry, so a batch with no recognised key leaves the state unchanged and emits nothing. |
| Properties.BatchSplit | batti.c:119-150 | The handler acts the same on a batch whole or split in two: handling `e1 + e2` ends in the record reached by handling `e2` after `e1`, and emits the commands of `e1` followed by those of `e2`. This includes the intermediate tooltips, one per recognised entry, each built from the record as it stands after that entry. |
| Properties.BatchKeepsDisplayInStep | batti.c:119-150 | After a batch, the icon on show is the truncated name from the last "IconName" entry, or the previous icon if there is none. If the tooltip described the stored state before the batch, it still does after it. |
| Properties.BatchTooltipsFit | batti.c:117-147 | Starting from a valid label, the label stays valid, and every tooltip the batch emits fits in the 64-byte buffer. |
| Startup.Init | batti.c:153-203 | If the proxy cannot be created, the result is absent (NULL). Otherwise the state is `{percentage, state_to_string(code)}`, and the output is one `SetIcon` with the truncated name followed by one `SetTooltip` that describes that state. |
| Startup.InitIsSeedBatch | batti.c:177-200 | `init` agrees with the change handler run on the three cached values from any prior state. Both end in the same state and leave the same icon and tooltip on show. |
| ChildSlots.Trigger | batti.c:55-58 | A spawn happens exactly when the slot is 0 and the spawn succeeds, and the slot then holds the new, nonzero pid. Otherwise the slot is unchanged: a trigger on a nonzero slot is a no-op, and a failed spawn leaves 0. |
| ChildSlots.TriggersWithoutExitSpawnAtMostOnce | batti.c:71-74 | Any number of triggers with no exit in between spawn at most one process. If a child is already running they spawn none and leave its pid in place. |
| ChildSlots.Step | batti.c:35-41 | One event on a slot. A trigger behaves as `Trigger`. A child exit (`child_watch_cb`) leaves the slot 0 and spawns nothing. A spawn happens only from 0 and leaves the slot nonzero. |
| ChildSlots.Run | batti.c:35-75 | Over any event sequence on one slot, the number of spawns is at most the number of exits, plus one if the slot started idle. This holds for any exit events; it bounds the running instances only when every exit is the slot's own child's, as stated next. |
| ChildSlots.ChildrenAccountedFor | batti.c:35-75 | When every exit event is the exit of the child the slot holds (the only exits the child watch on the spawned pid delivers), children held at the start plus children spawned equal children exited plus the child held at the end. So at most one child per slot runs, and it is the one whose pid the slot holds. |
| ChildSlots.ExitThenTriggerSpawnsOnce | batti.c:35-41 | An exit, whatever its status, resets the slot to 0. A successful trigger after it spawns exactly one new process. |
| ChildSlots.StepSlots | batti.c:222-228 | An event for one action never changes the other action's slot. The acting slot takes one step of the slot machine. |
| Tray.Main | batti.c:205-228 | `main` returns 1 exactly when `init` fails. Otherwise the applet record is exactly what `init` seeded, `{cached percentage, state_to_string(cached code)}`, both slots start at 0, and the truncated cached icon is on show. The invariant holds, so the tooltip on show describes that record. |
| Tray.Dispatch | batti.c:219-228 | A "g-properties-changed" signal runs `on_properties_changed`: the stored percentage and label become those of the last matching entries (or stay), the icon on show becomes the truncated name of the last "IconName" entry (or stays), and the child slots are untouched. An "activate" or "popup-menu" event or a child exit steps that action's own slot, exactly as `StepSlots`, and touches neither the applet record nor the display. Each handler preserves the invariant: the label is valid, an icon is on show, and the tooltip on show describes the stored state. |
| Tray.RunEvents | batti.c:219-230 | `gtk_main` delivering events one after another. From a state satisfying the invariant, any sequence of events keeps it. |
| Tray.FullBatteryThenDischarge | batti.c:177-200 | Starting with cached icon "battery-full-simbolic", 100% and code 4 shows "battery-full" and "100% (Fully charged)". A following change to 55% shows "55% (Fully charged)" and leaves the icon unchanged. |

## Left out

- GTK initialisation, the status-icon widget and `gtk_main` (batti.c:211-213, 230) are UI and event-loop plumbing. The GTK calls appear only as the emitted `SetIcon`/`SetTooltip` values, and the loop appears only as `Tray.RunEvents` over a sequence of events.
- D-Bus proxy creation and cached-property reads (batti.c:166-177, 190, 194) are foreign calls. They are modelled as a `ProxyOutcome`: failure, or success with already-decoded values.
- Startup.Init: a proxy is created even when UPower has no `battery_BAT0` object, and then `g_dbus_proxy_get_cached_property` returns NULL. `init` passes that NULL unchecked to `g_variant_dup_string`, `g_variant_get_double` and `g_variant_get_uint32` (batti.c:177-181, 190-191, 194-195), which is a crash, not exit status 1. `ProxyCreated` always carries the three values, so this path is not modelled, and `Tray.Main`'s "exit status 1 exactly when `init` fails" covers only a failed proxy creation.
- GVariant decoding and iteration are library internals. A batch is a sequence of decoded entries. The code never checks the value types, so the model requires the types UPower declares: a string for "IconName", a double for "Percentage", a `uint32` for "State" (`Properties.WellTyped`). Mistyped values are not modelled.
- The `(guint)g_variant_get_double` cast (batti.c:136, 191) is floating point. The model takes the percentage as the `guint` the cast yields.
- Real process spawning, `g_child_watch_add` and `g_spawn_close_pid` are OS and concurrency plumbing. A spawn is a `SpawnOutcome` parameter, and a child's exit is an event. The fixed argv vectors (batti.c:45-53, 63-69) are constants and are not modelled.
- Memory management (`g_free`, `g_variant_unref`, `g_variant_iter_free`) and the unreachable `g_object_unref` (batti.c:233) are not modelled.
- The `invalidated_properties` argument is ignored by the code and is not modelled.
- IconName.StripIconSuffix: counts the cut in characters, while C's `length` from `g_variant_dup_string` counts UTF-8 bytes. The two agree whenever the last nine characters of the name are ASCII, which holds for UPower's icon names (ASCII throughout). For other names the model cuts a different prefix, and it excludes names of at least 9 bytes but fewer than 9 characters, which C cuts without an out-of-bounds write.
- Icon names of 2^64 characters or more cannot occur. `IconName.Strippable` excludes them, along with embedded NULs, which D-Bus strings cannot contain.

=== FILE: child_slots.dfy ===
/** `activate_cb`, `popup_cb` and `child_watch_cb`: each user action owns a
    `GPid` variable that is 0 while no viewer it started is running. A
    trigger spawns only from 0; the child's exit puts 0 back. */
module ChildSlots {
  import opened GLib

  /** The value of an idle slot. */
  const Idle: GPid := 0

  /** The pid a successful spawn stores: always positive. */
  type ChildPid = p: int | p > 0 witness 1

  /** What `g_spawn_async_with_pipes` would report if it were called. */
  datatype SpawnOutcome = Spawned(pid: ChildPid) | SpawnFailed

  /** The events one slot reacts to: its action being triggered, with the
      spawn result the call would give, and its child exiting. */
  datatype SlotEvent = Triggered(spawn: SpawnOutcome) | ChildExited(status: int)

  /** The slot after one event, and whether a process was spawned. */
  datatype SlotStep = SlotStep(slot: GPid, spawned: bool)

  /** `activate_cb` / `popup_cb` on `*pid`: spawning is attempted only when
      the slot is 0; on success the slot holds the new pid. */
  function Trigger(slot: GPid, spawn: SpawnOutcome): (r: SlotStep)
    ensures r.spawned <==> slot == Idle && spawn.Spawned?
    ensures r.spawned ==> r.slot == spawn.pid && r.slot != Idle
    ensures !r.spawned ==> r.slot == slot
  {
    if slot == Idle && spawn.Spawned? then SlotStep(spawn.pid, true)
    else SlotStep(slot, false)
  }

  /** One event on one slot. `child_watch_cb` ignores the exit status and
      resets the slot. */
  function Step(slot: GPid, event: SlotEvent): (r: SlotStep)
    ensures event.Triggered? ==> r == Trigger(slot, event.spawn)
    ensures event.ChildExited? ==> r.slot == Idle && !r.spawned
    ensures r.spawned ==> slot == Idle && r.slot != Idle
  {
    match event
    case Triggered(spawn) => Trigger(slot, spawn)
    case ChildExited(_) => SlotStep(Idle, false)
  }

  /** The slot after a sequence of events, and how many processes were
      spawned along the way. */
  datatype SlotRun = SlotRun(slot: GPid, spawns: nat)

  /** Every spawn but the first (from an idle slot) is paid for by an exit
      in between. This holds for any exit events; it bounds the number of
      running instances only when every exit is that of the slot's own
      child, which `ChildrenAccountedFor` states exactly. */
  function Run(slot: GPid, events: seq<SlotEvent>): (r: SlotRun)
    ensures r.spawns <= CountExits(events) + (if slot == Idle then 1 else 0)
    decreases |events|
  {
    if |events| == 0 then SlotRun(slot, 0)
    else
      var s := Step(slot, events[0]);
      var rest := Run(s.slot, events[1..]);
      SlotRun(rest.slot, rest.spawns + (if s.spawned then 1 else 0))
  }

  function CountExits(events: seq<SlotEvent>): nat
  {
    if |events| == 0 then 0
    else (if events[0].ChildExited? then 1 else 0) + CountExits(events[1..])
  }

  /** Triggers with no exit in between spawn at most one process, and none
      at all if a child was already running. */
  lemma {:induction false} TriggersWithoutExitSpawnAtMostOnce(slot: GPid, events: seq<SlotEvent>)
    requires forall i :: 0 <= i < |events| ==> events[i].Triggered?
    ensures Run(slot, events).spawns <= (if slot == Idle then 1 else 0)
    ensures slot != Idle ==> Run(slot, events).slot == slot
    decreases |events|
  {
    if |events| > 0 {
      TriggersWithoutExitSpawnAtMostOnce(Step(slot, events[0]).slot, events[1..]);
    }
  }

  /** 1 if the slot holds a child, else 0. */
  function RunningCount(slot: GPid): nat
  {
    if slot == Idle then 0 else 1
  }

  /** Every exit event is the exit of a child the slot holds, as with the
      child watch `g_child_watch_add` installs on the spawned pid. */
  predicate ExitsAreReal(slot: GPid, events: seq<SlotEvent>)
    decreases |events|
  {
    |events| == 0 ||
    ((events[0].ChildExited? ==> slot != Idle) && ExitsAreReal(Step(slot, events[0]).slot, events[1..]))
  }

  /** When every exit is a real one, children started (plus the one held at
      the start) equal children exited plus the one held at the end: at any
      moment at most one child of the slot is running, and it is the one
      whose pid the slot holds. */
  lemma {:induction false} ChildrenAccountedFor(slot: GPid, events: seq<SlotEvent>)
    requires ExitsAreReal(slot, events)
    ensures RunningCount(slot) + Run(slot, events).spawns
         == CountExits(events) + RunningCount(Run(slot, events).slot)
    decreases |events|
  {
    if |events| > 0 {
      ChildrenAccountedFor(Step(slot, events[0]).slot, events[1..]);
    }
  }

  /** Whatever the exit status and whatever the slot held, an exit makes
      the slot idle again, and the next successful trigger spawns exactly
      one new process. */
  lemma ExitThenTriggerSpawnsOnce(slot: GPid, status: int, pid: ChildPid)
    ensures Run(slot, [ChildExited(status)]).slot == Idle
    ensures Run(slot, [ChildExited(status), Triggered(Spawned(pid))]) == SlotRun(pid, 1)
  {
    var events := [ChildExited(status), Triggered(Spawned(pid))];
    var last := [Triggered(Spawned(pid))];
    assert events[1..] == last && last[1..] == [];
    assert Run(Idle, last) == SlotRun(pid, 1);
  }

  /** The two actions of the status icon. */
  datatype Action = Activate | Popup

  /** `activate_child_pid` and `popup_child_pid`. */
  datatype Slots = Slots(activate: GPid, popup: GPid)

  const BothIdle: Slots := Slots(Idle, Idle)

  /** An event delivered to the slot of one action; the other slot is
      never touched. */
  function StepSlots(slots: Slots, action: Action, event: SlotEvent): (r: Slots)
    ensures action == Activate ==> r.popup == slots.popup
    ensures action == Popup ==> r.activate == slots.activate
    ensures action == Activate ==> r.activate == Step(slots.activate, event).slot
    ensures action == Popup ==> r.popup == Step(slots.popup, event).slot
  {
    match action
    case Activate => slots.(activate := Step(slots.activate, event).slot)
    case Popup => slots.(popup := Step(slots.popup, event).slot)
  }
}

=== FILE: decimal.dfy ===
/** Unsigned decimal numerals, as the `%u` conversion of `g_sprintf` writes
    them, together with the inverse reading used to state round trips. */
module Decimal {
  import opened GLib

  predicate IsDigit(c: char) {
    '0' <= c <= '9'
  }

  predicate AllDigits(s: string) {
    forall i :: 0 <= i < |s| ==> IsDigit(s[i])
  }

  /** A numeral `%u` can produce: one or more digits, no leading zero
      unless the numeral is "0" itself. */
  predicate Canonical(s: string) {
    && |s| >= 1
    && AllDigits(s)
    && (|s| > 1 ==> s[0] != '0')
  }

  function DigitValue(c: char): (d: nat)
    requires IsDigit(c)
    ensures d < 10
  {
    c as int - '0' as int
  }

  function DigitChar(d: nat): (c: char)
    requires d < 10
    ensures IsDigit(c) && DigitValue(c) == d
  {
    ('0' as int + d) as char
  }

  /** The digits `%u` prints for `n`: most significant first. */
  function Render(n: nat): (s: string)
    ensures Canonical(s)
    ensures s[0] == '0' <==> n == 0
  {
    if n < 10 then [DigitChar(n)] else Render(n / 10) + [DigitChar(n % 10)]
  }

  /** The number a string of digits denotes. */
  function Value(s: string): nat
    requires AllDigits(s)
  {
    if |s| == 0 then 0 else Value(s[..|s| - 1]) * 10 + DigitValue(s[|s| - 1])
  }

  function Pow10(k: nat): (p: nat)
    ensures p >= 1
  {
    if k == 0 then 1 else 10 * Pow10(k - 1)
  }

  /** Reading back what `Render` wrote gives the number. */
  lemma {:induction false} ValueOfRender(n: nat)
    ensures Value(Render(n)) == n
  {
    if n >= 10 {
      var s := Render(n / 10);
      var t := s + [DigitChar(n % 10)];
      assert t[..|t| - 1] == s;
      ValueOfRender(n / 10);
    }
  }

  lemma {:induction false} ValuePositive(s: string)
    requires AllDigits(s) && |s| >= 1 && s[0] != '0'
    ensures Value(s) >= 1
  {
    if |s| > 1 {
      var p := s[..|s| - 1];
      assert p[0] == s[0];
      ValuePositive(p);
    }
  }

  /** Rendering the value of a canonical numeral gives the numeral back, so
      canonical numerals and naturals are in one-to-one correspondence. */
  lemma {:induction false} RenderOfValue(s: string)
    requires Canonical(s)
    ensures Render(Value(s)) == s
  {
    var d := DigitValue(s[|s| - 1]);
    assert DigitChar(d) == s[|s| - 1];
    if |s| > 1 {
      var p := s[..|s| - 1];
      assert p[0] == s[0];
      ValuePositive(p);
      RenderOfValue(p);
      assert Value(s) / 10 == Value(p) && Value(s) % 10 == d;
      assert s == p + [s[|s| - 1]];
    }
  }

  /** A number below 10^k takes at most k digits. */
  lemma {:induction false} RenderLength(n: nat, k: nat)
    requires k >= 1 && n < Pow10(k)
    ensures |Render(n)| <= k
  {
    if n >= 10 {
      assert k >= 2;
      assert n / 10 < Pow10(k - 1);
      RenderLength(n / 10, k - 1);
    }
  }

  /** Every `guint` prints in at most ten digits (2^32 < 10^10). */
  lemma RenderGUIntLength(n: nat)
    requires n < GUIntModulus
    ensures |Render(n)| <= 10
  {
    assert Pow10(10) == 10000000000;
    RenderLength(n, 10);
  }

  /** The numerals of the percentages in the full-battery example. */
  lemma RenderExamples()
    ensures Render(100) == "100" && Render(55) == "55"
  {
  }
}

=== FILE: glib.dfy ===
/** The C integer types the applet works with, and an optional-value wrapper.
    Dafny integers are unbounded, so the widths of `guint`/`guint32` and
    `gsize` are written out as explicit bounds and moduli. */
module GLib {

  /** 2^32: one past the largest `guint` / `guint32`. */
  const GUIntModulus: nat := 0x1_0000_0000

  /** 2^64: the modulus of `gsize` arithmetic on a 64-bit host. */
  const GSizeModulus: nat := 0x1_0000_0000_0000_0000

  /** A `guint` or `guint32` value. */
  type GUInt = x: int | 0 <= x < GUIntModulus

  /** `GPid` on Unix: a plain `int`; the applet uses 0 for "no child". */
  type GPid = int

  /** A value that may be absent (a NULL pointer, a property not yet shown). */
  datatype Option<+T> = None | Some(value: T)
}

=== FILE: icon_name.dfy ===
/** The icon-name rewrite applied to every `IconName` value: the code writes
    a NUL into the duplicated string `sizeof NOT_SIMBOLIC_ICON` bytes
    (characters in this model) before its end, without looking at the
    characters it cuts off. */
module IconName {
  import opened GLib

  const NotSymbolicIcon: string := "simbolic"

  /** `sizeof NOT_SIMBOLIC_ICON`: the literal's characters plus its NUL. */
  const NotSymbolicIconSize: nat := |NotSymbolicIcon| + 1

  const Nul: char := '\0'

  predicate NoNul(s: string) {
    forall i :: 0 <= i < |s| ==> s[i] != Nul
  }

  /** A D-Bus string (no embedded NUL) long enough for the cut to land
      inside it. */
  predicate Strippable(name: string) {
    && NoNul(name)
    && NotSymbolicIconSize <= |name| < GSizeModulus
  }

  /** `length - sizeof NOT_SIMBOLIC_ICON` evaluated in `gsize`. */
  function NulIndex(length: nat): nat
    requires length < GSizeModulus
  {
    (length - NotSymbolicIconSize) % GSizeModulus
  }

  /** The C string a NUL-terminated buffer holds: everything before its
      first NUL. */
  function CString(buf: string): (s: string)
    ensures NoNul(s) && |s| <= |buf|
  {
    if |buf| == 0 || buf[0] == Nul then [] else [buf[0]] + CString(buf[1..])
  }

  lemma {:induction false} CStringStopsAtNul(buf: string, i: nat)
    requires i < |buf| && buf[i] == Nul && NoNul(buf[..i])
    ensures CString(buf) == buf[..i]
  {
    if i > 0 {
      assert buf[0] == buf[..i][0];
      assert buf[1..][..i - 1] == buf[..i][1..];
      CStringStopsAtNul(buf[1..], i - 1);
      assert buf[..i] == [buf[0]] + buf[1..][..i - 1];
    }
  }

  /** The truncation at batti.c:125-126 and 179-181: `g_variant_dup_string`
      yields the characters and a terminating NUL; a second NUL overwrites
      position `length - 9`; the icon name used is the C string left. The
      result is the name with its last nine characters removed, whatever
      they are. C's `length` counts UTF-8 bytes, so the two agree when
      those nine characters are ASCII, as in UPower's icon names. */
  function StripIconSuffix(name: string): (stripped: string)
    requires Strippable(name)
    ensures |stripped| == |name| - NotSymbolicIconSize
    ensures stripped + name[|stripped|..] == name
  {
    var buf := name + [Nul];
    var i := NulIndex(|name|);
    assert buf[i := Nul][..i] == name[..i];
    CStringStopsAtNul(buf[i := Nul], i);
    CString(buf[i := Nul])
  }

  /** Whatever nine characters end the name, they are what is removed. */
  lemma StripRemovesAnyNineCharacterTail(base: string, tail: string)
    requires Strippable(base + tail) && |tail| == NotSymbolicIconSize
    ensures StripIconSuffix(base + tail) == base
  {
  }

  /** The names UPower reports lose their "-symbolic" (or "-simbolic")
      ending; a name of exactly nine characters becomes empty. */
  lemma StripExamples()
    ensures StripIconSuffix("battery-full-simbolic") == "battery-full"
    ensures StripIconSuffix("battery-full-symbolic") == "battery-full"
    ensures StripIconSuffix("-symbolic") == ""
  {
  }

  /** A name shorter than nine characters makes `length - 9` wrap around in
      `gsize`, so the NUL would be written out of bounds (as a pointer offset
      the wrapped index lands before the buffer); the model therefore
      requires at least nine characters. */
  lemma ShortNameWritesOutOfBounds(name: string)
    requires |name| < NotSymbolicIconSize
    ensures NulIndex(|name|) > |name|
  {
  }
}

=== FILE: presentation.dfy ===
/** What the applet tells the status icon: the only two GTK calls the core
    makes, as values, and the icon/tooltip they leave showing. */
module Presentation {
  import opened GLib

  /** `gtk_status_icon_set_from_icon_name` and
      `gtk_status_icon_set_tooltip_text`. */
  datatype Command = SetIcon(iconName: string) | SetTooltip(text: string)

  /** What the status icon currently shows; `None` before the first call. */
  datatype Display = Display(icon: Option<string>, tooltip: Option<string>)

  const Blank: Display := Display(None, None)

  /** The display after one command. */
  function Apply(d: Display, command: Command): Display
  {
    match command
    case SetIcon(name) => d.(icon := Some(name))
    case SetTooltip(text) => d.(tooltip := Some(text))
  }

  /** The display after the commands are carried out in order. */
  function Present(d: Display, commands: seq<Command>): (shown: Display)
    ensures commands == [] ==> shown == d
    decreases |commands|
  {
    if |commands| == 0 then d
    else Present(Apply(d, commands[0]), commands[1..])
  }

  /** Carrying out two command lists one after the other is carrying out
      their concatenation. */
  lemma {:induction false} PresentConcat(d: Display, c1: seq<Command>, c2: seq<Command>)
    ensures Present(d, c1 + c2) == Present(Present(d, c1), c2)
    decreases |c1|
  {
    if |c1| > 0 {
      assert (c1 + c2)[0] == c1[0];
      assert (c1 + c2)[1..] == c1[1..] + c2;
      PresentConcat(Apply(d, c1[0]), c1[1..], c2);
    } else {
      assert c1 + c2 == c2;
    }
  }

  /** The icon shown is the one named by the last `SetIcon`, the tooltip
      the text of the last `SetTooltip`; each kind of command leaves the
      other half of the display alone. */
  lemma {:induction false} PresentShowsLast(d: Display, commands: seq<Command>)
    ensures Present(d, commands).icon == LastIcon(commands, d.icon)
    ensures Present(d, commands).tooltip == LastTooltip(commands, d.tooltip)
    decreases |commands|
  {
    if |commands| > 0 {
      var last := commands[|commands| - 1];
      var init := commands[..|commands| - 1];
      assert commands == init + [last];
      PresentConcat(d, init, [last]);
      PresentShowsLast(d, init);
      assert [last][1..] == [];
    }
  }

  /** The name carried by the last `SetIcon`, or `prior` if there is none. */
  function LastIcon(commands: seq<Command>, prior: Option<string>): Option<string>
  {
    if |commands| == 0 then prior
    else if commands[|commands| - 1].SetIcon? then Some(commands[|commands| - 1].iconName)
    else LastIcon(commands[..|commands| - 1], prior)
  }

  /** The text carried by the last `SetTooltip`, or `prior` if there is none. */
  function LastTooltip(commands: seq<Command>, prior: Option<string>): Option<string>
  {
    if |commands| == 0 then prior
    else if commands[|commands| - 1].SetTooltip? then Some(commands[|commands| - 1].text)
    else LastTooltip(commands[..|commands| - 1], prior)
  }
}

=== FILE: properties.dfy ===
/** `on_properties_changed`: a batch of changed UPower properties folded,
    in iteration order, over the applet's stored percentage and state
    label, emitting one presentation command per recognised key. */
module Properties {
  import opened GLib
  import StateLabel
  import IconName
  import Tooltip
  import opened Presentation

  const PropertyIconName: string := "IconName"
  const PropertyPercentage: string := "Percentage"
  const PropertyState: string := "State"

  /** The `applet` record without its widget: the last percentage seen and
      the label of the last state seen. */
  datatype Applet = Applet(percentage: GUInt, stateString: string)

  /** A changed property's value, already decoded: the icon name string,
      the percentage after the `(guint)` cast, the `guint32` state code. */
  datatype Value =
    | StringValue(text: string)
    | DoubleValue(truncated: GUInt)
    | UInt32Value(code: GUInt)

  /** One `{&sv}` entry of the `a{sv}` dictionary. */
  datatype Entry = Entry(key: string, value: Value)

  /** The result of handling entries: the new applet state and the
      commands issued, in order. */
  datatype Outcome = Outcome(applet: Applet, commands: seq<Command>)

  predicate Recognised(key: string) {
    key == PropertyIconName || key == PropertyPercentage || key == PropertyState
  }

  /** The value types the UPower Device interface declares for the three
      properties the applet reads; the code decodes them unchecked. */
  predicate WellTyped(e: Entry) {
    && (e.key == PropertyIconName ==> e.value.StringValue? && IconName.Strippable(e.value.text))
    && (e.key == PropertyPercentage ==> e.value.DoubleValue?)
    && (e.key == PropertyState ==> e.value.UInt32Value?)
  }

  predicate WellTypedBatch(entries: seq<Entry>) {
    forall i :: 0 <= i < |entries| ==> WellTyped(entries[i])
  }

  /** The stored label is one `state_to_string` returns. */
  predicate Valid(a: Applet) {
    a.stateString in StateLabel.Labels
  }

  /** The tooltip the stored state calls for. */
  function TooltipOf(a: Applet): string {
    Tooltip.Format(a.percentage, a.stateString)
  }

  /** The tooltip on show describes the stored state. */
  predicate Consistent(a: Applet, d: Display) {
    d.tooltip == Some(TooltipOf(a))
  }

  /** The body of the `while (g_variant_iter_loop …)` loop for one entry. */
  function ApplyEntry(a: Applet, e: Entry): (r: Outcome)
    requires WellTyped(e)
    // An icon name is rewritten and shown; nothing stored changes.
    ensures e.key == PropertyIconName ==>
      r.applet == a && r.commands == [SetIcon(IconName.StripIconSuffix(e.value.text))]
    // A percentage replaces only the stored percentage.
    ensures e.key == PropertyPercentage ==>
      r.applet == a.(percentage := e.value.truncated)
    // A state code replaces only the stored label.
    ensures e.key == PropertyState ==>
      r.applet == a.(stateString := StateLabel.StateToString(e.value.code))
    // Either of those issues exactly one tooltip, describing the new state.
    ensures e.key == PropertyPercentage || e.key == PropertyState ==>
      r.commands == [SetTooltip(TooltipOf(r.applet))]
    // Any other key is ignored.
    ensures !Recognised(e.key) ==> r == Outcome(a, [])
    ensures Valid(a) ==> Valid(r.applet)
  {
    if e.key == PropertyIconName then
      Outcome(a, [SetIcon(IconName.StripIconSuffix(e.value.text))])
    else if e.key == PropertyPercentage then
      var a' := a.(percentage := e.value.truncated);
      Outcome(a', [SetTooltip(Tooltip.Format(a'.percentage, a'.stateString))])
    else if e.key == PropertyState then
      var a' := a.(stateString := StateLabel.StateToString(e.value.code));
      Outcome(a', [SetTooltip(Tooltip.Format(a'.percentage, a'.stateString))])
    else
      Outcome(a, [])
  }

  /** The whole handler: the entries in the order the iterator yields them.
      Afterwards the stored percentage is that of the last "Percentage"
      entry and the stored label that of the last "State" entry, the prior
      values standing where there is none; one command is issued per
      recognised entry, so a batch with no recognised key changes nothing
      and issues nothing. */
  function ProcessBatch(a: Applet, entries: seq<Entry>): (r: Outcome)
    requires WellTypedBatch(entries)
    ensures r.applet.percentage == LastPercentage(entries, a.percentage)
    ensures r.applet.stateString == LastStateString(entries, a.stateString)
    ensures |r.commands| == CountRecognised(entries)
    ensures CountRecognised(entries) == 0 ==> r == Outcome(a, [])
    decreases |entries|
  {
    if |entries| == 0 then Outcome(a, [])
    else
      var first := ApplyEntry(a, entries[0]);
      var rest := ProcessBatch(first.applet, entries[1..]);
      assert entries == [entries[0]] + entries[1..];
      LastOfCons(entries[0], entries[1..], a.percentage, a.stateString, None);
      Outcome(rest.applet, first.commands + rest.commands)
  }

  // Reference definitions, reading a batch from its end.

  /** The value of the last "Percentage" entry, or `prior` if there is none. */
  function LastPercentage(entries: seq<Entry>, prior: GUInt): GUInt
    requires WellTypedBatch(entries)
  {
    if |entries| == 0 then prior
    else if entries[|entries| - 1].key == PropertyPercentage then entries[|entries| - 1].value.truncated
    else LastPercentage(entries[..|entries| - 1], prior)
  }

  /** The label of the last "State" entry's code, or `prior` if there is none. */
  function LastStateString(entries: seq<Entry>, prior: string): string
    requires WellTypedBatch(entries)
  {
    if |entries| == 0 then prior
    else if entries[|entries| - 1].key == PropertyState then StateLabel.StateToString(entries[|entries| - 1].value.code)
    else LastStateString(entries[..|entries| - 1], prior)
  }

  /** The rewritten name of the last "IconName" entry, or `prior`. */
  function LastIconName(entries: seq<Entry>, prior: Option<string>): (icon: Option<string>)
    requires WellTypedBatch(entries)
    ensures prior.Some? ==> icon.Some?
  {
    if |entries| == 0 then prior
    else if entries[|entries| - 1].key == PropertyIconName then Some(IconName.StripIconSuffix(entries[|entries| - 1].value.text))
    else LastIconName(entries[..|entries| - 1], prior)
  }

  /** The number of entries with a recognised key. */
  function CountRecognised(entries: seq<Entry>): nat
  {
    if |entries| == 0 then 0
    else (if Recognised(entries[0].key) then 1 else 0) + CountRecognised(entries[1..])
  }

  /** Reading from the end and folding from the front agree: peeling the
      first entry off a batch only changes the fallback value. */
  lemma {:induction false} LastOfCons(e: Entry, entries: seq<Entry>, p: GUInt, s: string, icon: Option<string>)
    requires WellTyped(e) && WellTypedBatch(entries)
    ensures WellTypedBatch([e] + entries)
    ensures LastPercentage([e] + entries, p)
         == LastPercentage(entries, if e.key == PropertyPercentage then e.value.truncated else p)
    ensures LastStateString([e] + entries, s)
         == LastStateString(entries, if e.key == PropertyState then StateLabel.StateToString(e.value.code) else s)
    ensures LastIconName([e] + entries, icon)
         == LastIconName(entries, if e.key == PropertyIconName then Some(IconName.StripIconSuffix(e.value.text)) else icon)
    decreases |entries|
  {
    var all := [e] + entries;
    if |entries| == 0 {
      assert all[..|all| - 1] == [];
    } else {
      assert all[..|all| - 1] == [e] + entries[..|entries| - 1];
      assert all[|all| - 1] == entries[|entries| - 1];
      LastOfCons(e, entries[..|entries| - 1], p, s, icon);
    }
  }

  /** Whatever the display showed, after a batch the icon is the rewritten
      name of the last "IconName" entry (or unchanged), and if the tooltip
      described the stored state before, it still does. */
  lemma {:induction false} BatchKeepsDisplayInStep(a: Applet, d: Display, entries: seq<Entry>)
    requires WellTypedBatch(entries)
    ensures Present(d, ProcessBatch(a, entries).commands).icon == LastIconName(entries, d.icon)
    ensures Consistent(a, d) ==>
      Consistent(ProcessBatch(a, entries).applet, Present(d, ProcessBatch(a, entries).commands))
    decreases |entries|
  {
    if |entries| > 0 {
      var e := entries[0];
      var first := ApplyEntry(a, e);
      var d' := Present(d, first.commands);
      PresentConcat(d, first.commands, ProcessBatch(first.applet, entries[1..]).commands);
      BatchKeepsDisplayInStep(first.applet, d', entries[1..]);
      assert entries == [e] + entries[1..];
      LastOfCons(e, entries[1..], a.percentage, a.stateString, d.icon);
      assert first.commands != [] ==> first.commands[1..] == [];
    }
  }

  /** Starting from a valid state, the state stays valid and every tooltip
      a batch issues fits, with its NUL, in the 64-byte `tooltip_text`
      buffer. */
  lemma {:induction false} BatchTooltipsFit(a: Applet, entries: seq<Entry>)
    requires WellTypedBatch(entries)
    ensures Valid(a) ==> Valid(ProcessBatch(a, entries).applet)
    ensures Valid(a) ==> forall c :: c in ProcessBatch(a, entries).commands && c.SetTooltip? ==>
      |c.text| + 1 <= Tooltip.TooltipTextSize
    decreases |entries|
  {
    if |entries| > 0 && Valid(a) {
      var first := ApplyEntry(a, entries[0]);
      BatchTooltipsFit(first.applet, entries[1..]);
    }
  }

  /** Joining two well-typed batches gives a well-typed batch. */
  lemma WellTypedConcat(e1: seq<Entry>, e2: seq<Entry>)
    requires WellTypedBatch(e1) && WellTypedBatch(e2)
    ensures WellTypedBatch(e1 + e2)
  {
  }

  /** A batch acts the same whole or split: handling `e1 + e2` ends where
      handling `e2` after `e1` ends, and issues the commands of `e1`
      followed by those of `e2`, intermediate tooltips included. */
  lemma {:induction false} BatchSplit(a: Applet, e1: seq<Entry>, e2: seq<Entry>)
    requires WellTypedBatch(e1) && WellTypedBatch(e2)
    ensures WellTypedBatch(e1 + e2)
    ensures ProcessBatch(a, e1 + e2)
         == Outcome(ProcessBatch(ProcessBatch(a, e1).applet, e2).applet,
                    ProcessBatch(a, e1).commands + ProcessBatch(ProcessBatch(a, e1).applet, e2).commands)
    decreases |e1|
  {
    WellTypedConcat(e1, e2);
    if |e1| == 0 {
      assert e1 + e2 == e2;
    } else {
      var first := ApplyEntry(a, e1[0]);
      var mid := ProcessBatch(first.applet, e1[1..]);
      var tail := ProcessBatch(mid.applet, e2);
      assert ProcessBatch(a, e1 + e2) == Outcome(tail.applet, first.commands + (mid.commands + tail.commands)) by {
        assert (e1 + e2)[0] == e1[0];
        assert (e1 + e2)[1..] == e1[1..] + e2;
        BatchSplit(first.applet, e1[1..], e2);
      }
      assert ProcessBatch(a, e1) == Outcome(mid.applet, first.commands + mid.commands);
      assert first.commands + (mid.commands + tail.commands) == (first.commands + mid.commands) + tail.commands;
    }
  }
}

=== FILE: startup.dfy ===
/** `init`: create the proxy and seed the applet from its cached
    properties, showing the icon and the first tooltip. */
module Startup {
  import opened GLib
  import StateLabel
  import IconName
  import opened Presentation
  import opened Properties

  /** The three cached property values, already decoded. */
  datatype CachedProperties = CachedProperties(iconName: string, percentage: GUInt, state: GUInt)

  /** What `g_dbus_proxy_new_for_bus_sync` gives: NULL, or a proxy together
      with the three values its cache holds. A created proxy whose cache
      lacks one of them (the device object is missing) is not represented:
      the C code then reads a NULL `GVariant` unchecked. */
  datatype ProxyOutcome = ProxyCreated(cached: CachedProperties) | ProxyFailed

  /** The cached icon name can go through the truncation. */
  predicate Readable(proxy: ProxyOutcome) {
    proxy.ProxyCreated? ==> IconName.Strippable(proxy.cached.iconName)
  }

  /** `init`: `None` when the proxy could not be created (the C code
      returns NULL); otherwise the seeded applet and the two commands,
      icon first, then tooltip. */
  function Init(proxy: ProxyOutcome): (r: Option<Outcome>)
    requires Readable(proxy)
    ensures r.None? <==> proxy.ProxyFailed?
    ensures r.Some? ==>
      r.value.applet == Applet(proxy.cached.percentage, StateLabel.StateToString(proxy.cached.state))
    ensures r.Some? ==>
      r.value.commands == [SetIcon(IconName.StripIconSuffix(proxy.cached.iconName)), SetTooltip(TooltipOf(r.value.applet))]
    ensures r.Some? ==> Valid(r.value.applet)
  {
    match proxy
    case ProxyFailed => None
    case ProxyCreated(c) =>
      var icon := IconName.StripIconSuffix(c.iconName);
      var a := Applet(c.percentage, StateLabel.StateToString(c.state));
      Some(Outcome(a, [SetIcon(icon), SetTooltip(TooltipOf(a))]))
  }

  /** The cached properties as a change batch, in the order `init` reads them. */
  function SeedEntries(c: CachedProperties): seq<Entry>
  {
    [ Entry(PropertyIconName, StringValue(c.iconName)),
      Entry(PropertyPercentage, DoubleValue(c.percentage)),
      Entry(PropertyState, UInt32Value(c.state)) ]
  }

  /** `init` is the change handler applied once to the cached values:
      from any prior state it ends in the same applet state and leaves the
      same icon and tooltip on show (the handler merely shows one extra,
      intermediate tooltip). */
  lemma InitIsSeedBatch(c: CachedProperties, a: Applet, d: Display)
    requires IconName.Strippable(c.iconName)
    ensures WellTypedBatch(SeedEntries(c))
    ensures Init(ProxyCreated(c)).value.applet == ProcessBatch(a, SeedEntries(c)).applet
    ensures Present(d, Init(ProxyCreated(c)).value.commands)
         == Present(d, ProcessBatch(a, SeedEntries(c)).commands)
  {
    var es := SeedEntries(c);
    assert WellTypedBatch(es);
    var o1 := ApplyEntry(a, es[0]);
    var o2 := ApplyEntry(o1.applet, es[1]);
    var o3 := ApplyEntry(o2.applet, es[2]);
    assert es[1..][1..] == [es[2]] && [es[2]][1..] == [];
    assert ProcessBatch(o2.applet, [es[2]]) == Outcome(o3.applet, o3.commands + []);
    assert ProcessBatch(a, es) == Outcome(o3.applet, o1.commands + (o2.commands + (o3.commands + [])));
    var init := Init(ProxyCreated(c)).value;
    var shown := Apply(Apply(d, init.commands[0]), init.commands[1]);
    assert init.commands[1..][1..] == [];
    assert Present(d, init.commands) == shown;
    var batch := o1.commands + (o2.commands + (o3.commands + []));
    assert batch == [init.commands[0], o2.commands[0], init.commands[1]];
    var d1 := Apply(d, batch[0]);
    var d2 := Apply(d1, batch[1]);
    assert batch[1..][1..] == [batch[2]] && [batch[2]][1..] == [];
    assert Present(d2, [batch[2]]) == Apply(d2, batch[2]);
    assert Present(d1, batch[1..]) == Present(d2, [batch[2]]);
  }
}

=== FILE: state_label.dfy ===
/** The human-readable label of a UPower device state code
    (`state_to_string`). */
module StateLabel {
  import opened GLib

  /** The labels indexed by the state code they stand for; every code from
      `|Labels|` upwards shares the label of code 0. */
  const Labels: seq<string> := [
    "Unknown",
    "Charging",
    "Discharging",
    "Empty",
    "Fully charged",
    "Pending charge",
    "Pending discharge"
  ]

  /** The longest label, "Pending discharge". */
  const MaxLabelLength: nat := 17

  /** `state_to_string`: a total map from every `guint32` code to one of
      the seven labels; codes it does not know read as "Unknown". */
  function StateToString(state: GUInt): (text: string)
    ensures text in Labels
    ensures state < |Labels| ==> text == Labels[state]
    ensures state >= |Labels| ==> text == Labels[0]
  {
    match state
    case 1 => "Charging"
    case 2 => "Discharging"
    case 3 => "Empty"
    case 4 => "Fully charged"
    case 5 => "Pending charge"
    case 6 => "Pending discharge"
    case _ => "Unknown"
  }

  /** The position of a label in `Labels`, if it is one. */
  function CodeOf(text: string): Option<nat>
  {
    if exists i :: 0 <= i < |Labels| && Labels[i] == text
    then Some(var i :| 0 <= i < |Labels| && Labels[i] == text; i)
    else None
  }

  /** The seven labels are distinct, so the label determines the code up to
      the many-to-one collapse of unknown codes onto 0. */
  lemma LabelIdentifiesCode(state: GUInt)
    ensures CodeOf(StateToString(state)) == Some(if state < |Labels| then state else 0)
  {
  }

  /** No label is longer than `MaxLabelLength` characters. */
  lemma LabelLength(text: string)
    ensures text in Labels ==> |text| <= MaxLabelLength
  {
  }
}

=== FILE: tooltip.dfy ===
/** The tooltip text `"%u%% (%s)"` and the fixed buffer it is written into. */
module Tooltip {
  import opened GLib
  import opened Decimal
  import StateLabel

  /** `TOOLTIP_TEXT_SIZE`: bytes in `tooltip_text`, NUL included. */
  const TooltipTextSize: nat := 64

  /** What `g_sprintf(tooltip_text, "%u%% (%s)", percentage, stateString)` writes,
      without the terminating NUL. For every `guint` percentage and every
      label `state_to_string` can return, the text and its NUL fit in the
      64-byte buffer, so the unbounded `g_sprintf` cannot overflow it. */
  function Format(percentage: GUInt, stateString: string): (text: string)
    ensures stateString in StateLabel.Labels ==> |text| + 1 <= TooltipTextSize
  {
    RenderGUIntLength(percentage);
    StateLabel.LabelLength(stateString);
    Render(percentage) + "% (" + stateString + ")"
  }

  /** The two values a tooltip was made from. */
  datatype Fields = Fields(percentage: GUInt, stateString: string)

  /** The number of leading digits of `t`. */
  function DigitPrefixLength(t: string): (k: nat)
    ensures k <= |t|
    ensures AllDigits(t[..k])
    ensures k < |t| ==> !IsDigit(t[k])
  {
    if |t| == 0 || !IsDigit(t[0]) then 0
    else
      var k := 1 + DigitPrefixLength(t[1..]);
      assert t[..k] == [t[0]] + t[1..][..k - 1];
      k
  }

  /** Reads a tooltip back into its percentage and label; `None` for text
      that no call of `Format` produces. */
  function Parse(t: string): Option<Fields>
  {
    var k := DigitPrefixLength(t);
    if && Canonical(t[..k])
       && k + 4 <= |t|
       && t[k..k + 3] == "% ("
       && t[|t| - 1] == ')'
       && Value(t[..k]) < GUIntModulus
    then Some(Fields(Value(t[..k]), t[k + 3..|t| - 1]))
    else None
  }

  lemma {:induction false} DigitPrefixOfConcat(a: string, b: string)
    requires AllDigits(a) && |b| >= 1 && !IsDigit(b[0])
    ensures DigitPrefixLength(a + b) == |a|
  {
    if |a| > 0 {
      assert (a + b)[1..] == a[1..] + b;
      DigitPrefixOfConcat(a[1..], b);
    }
  }

  /** Every tooltip reads back as the percentage and label it was made
      from: the format loses nothing, whatever the label. */
  lemma ParseFormat(percentage: GUInt, stateString: string)
    ensures Parse(Format(percentage, stateString)) == Some(Fields(percentage, stateString))
  {
    var digits := Render(percentage);
    var t := Format(percentage, stateString);
    assert t == digits + ("% (" + stateString + ")");
    DigitPrefixOfConcat(digits, "% (" + stateString + ")");
    assert t[..|digits|] == digits;
    assert t[|digits|..|digits| + 3] == "% (";
    assert t[|digits| + 3..|t| - 1] == stateString;
    ValueOfRender(percentage);
  }

  /** `Parse` accepts exactly the texts `Format` produces: both directions
      of the round trip. */
  lemma ParseIffFormat(t: string, f: Fields)
    ensures Parse(t) == Some(f) <==> Format(f.percentage, f.stateString) == t
  {
    if Format(f.percentage, f.stateString) == t {
      ParseFormat(f.percentage, f.stateString);
    }
    if Parse(t) == Some(f) {
      var k := DigitPrefixLength(t);
      RenderOfValue(t[..k]);
      assert t == t[..k] + t[k..k + 3] + t[k + 3..|t| - 1] + [t[|t| - 1]];
    }
  }

  /** Two calls produce the same tooltip only for the same arguments. */
  lemma FormatInjective(p1: GUInt, s1: string, p2: GUInt, s2: string)
    requires Format(p1, s1) == Format(p2, s2)
    ensures p1 == p2 && s1 == s2
  {
    ParseFormat(p1, s1);
    ParseFormat(p2, s2);
  }

  /** The tooltips of a full battery before and after it drops to 55%. */
  lemma FormatExamples()
    ensures Format(100, "Fully charged") == "100% (Fully charged)"
    ensures Format(55, "Fully charged") == "55% (Fully charged)"
  {
  }
}

=== FILE: tray.dfy ===
/** `main` and the event loop it hands control to: startup, then one
    run-to-completion handler per event, with the applet state and the two
    child slots as one explicit value. */
module Tray {
  import opened GLib
  import IconName
  import Tooltip
  import StateLabel
  import opened Presentation
  import opened Properties
  import opened Startup
  import opened ChildSlots

  /** Everything the handlers share: the applet record, what the status
      icon shows, and the two child slots. */
  datatype AppState = AppState(applet: Applet, display: Display, children: Slots)

  /** The events `gtk_main` delivers to the core: a "g-properties-changed"
      signal, and for each action its click and its child's exit. */
  datatype Event =
    | PropertiesChanged(changed: seq<Entry>)
    | ActionEvent(action: Action, event: SlotEvent)

  /** How `main` ends up: returning an exit status, or inside `gtk_main`. */
  datatype Launch = Exited(status: int) | Running(state: AppState)

  predicate WellTypedEvent(e: Event) {
    e.PropertiesChanged? ==> WellTypedBatch(e.changed)
  }

  /** The stored label is a real one, an icon is on show, and the tooltip
      on show describes the stored percentage and label. */
  predicate Invariant(s: AppState) {
    && Valid(s.applet)
    && s.display.icon.Some?
    && Consistent(s.applet, s.display)
  }

  /** `main`: a failed `init` makes the process return 1; otherwise both
      slots start idle and the seeded icon and tooltip are on show. */
  function Main(proxy: ProxyOutcome): (r: Launch)
    requires Readable(proxy)
    ensures r.Exited? <==> proxy.ProxyFailed?
    ensures r.Exited? ==> r.status == 1
    ensures r.Running? ==>
      r.state.applet == Applet(proxy.cached.percentage, StateLabel.StateToString(proxy.cached.state))
    ensures r.Running? ==> Invariant(r.state) && r.state.children == BothIdle
    ensures r.Running? ==>
      r.state.display.icon == Some(IconName.StripIconSuffix(proxy.cached.iconName))
  {
    match Init(proxy)
    case None => Exited(1)
    case Some(seeded) =>
      var shown := Present(Blank, seeded.commands);
      PresentShowsLast(Blank, seeded.commands);
      Running(AppState(seeded.applet, shown, BothIdle))
  }

  /** One handler run. A "g-properties-changed" signal runs
      `on_properties_changed`: the stored values become those of the last
      matching entries and the icon that of the last "IconName" entry,
      and the slots are untouched. An action or child exit steps that
      action's own slot and touches nothing else. */
  function Dispatch(s: AppState, e: Event): (r: AppState)
    requires WellTypedEvent(e)
    ensures Invariant(s) ==> Invariant(r)
    ensures e.PropertiesChanged? ==>
      && r.applet.percentage == LastPercentage(e.changed, s.applet.percentage)
      && r.applet.stateString == LastStateString(e.changed, s.applet.stateString)
      && r.display.icon == LastIconName(e.changed, s.display.icon)
      && r.children == s.children
    ensures e.ActionEvent? ==>
      && r.children == StepSlots(s.children, e.action, e.event)
      && r.applet == s.applet && r.display == s.display
  {
    match e
    case PropertiesChanged(changed) =>
      var out := ProcessBatch(s.applet, changed);
      BatchKeepsDisplayInStep(s.applet, s.display, changed);
      BatchTooltipsFit(s.applet, changed);
      AppState(out.applet, Present(s.display, out.commands), s.children)
    case ActionEvent(action, event) =>
      s.(children := StepSlots(s.children, action, event))
  }

  /** `gtk_main`: the handlers run one after another. From a successful
      start, after any sequence of events the tooltip on show still
      describes the stored percentage and label. */
  function RunEvents(s: AppState, events: seq<Event>): (r: AppState)
    requires forall i :: 0 <= i < |events| ==> WellTypedEvent(events[i])
    ensures Invariant(s) ==> Invariant(r)
    decreases |events|
  {
    if |events| == 0 then s else RunEvents(Dispatch(s, events[0]), events[1..])
  }

  /** A full-battery start followed by one percentage change. */
  lemma FullBatteryThenDischarge()
    ensures Main(ProxyCreated(CachedProperties("battery-full-simbolic", 100, 4))).Running?
    ensures Main(ProxyCreated(CachedProperties("battery-full-simbolic", 100, 4))).state.display
         == Display(Some("battery-full"), Some("100% (Fully charged)"))
    ensures Dispatch(Main(ProxyCreated(CachedProperties("battery-full-simbolic", 100, 4))).state,
                     PropertiesChanged([Entry(PropertyPercentage, DoubleValue(55))])).display
         == Display(Some("battery-full"), Some("55% (Fully charged)"))
  {
    Tooltip.FormatExamples();
    var c := CachedProperties("battery-full-simbolic", 100, 4);
    IconName.StripExamples();
    var s := Main(ProxyCreated(c)).state;
    var seeded := Init(ProxyCreated(c)).value;
    assert StateLabel.StateToString(4) == "Fully charged";
    assert seeded.applet == Applet(100, "Fully charged");
    assert TooltipOf(seeded.applet) == "100% (Fully charged)";
    assert seeded.commands == [SetIcon("battery-full"), SetTooltip("100% (Fully charged)")];
    assert seeded.commands[1..][1..] == [];
    assert s.display == Apply(Apply(Blank, seeded.commands[0]), seeded.commands[1]);
    var batch := [Entry(PropertyPercentage, DoubleValue(55))];
    assert batch[1..] == [];
    var first := ApplyEntry(s.applet, batch[0]);
    assert first.applet == Applet(55, "Fully charged");
    assert TooltipOf(first.applet) == "55% (Fully charged)";
    assert first.commands == [SetTooltip("55% (Fully charged)")];
    assert ProcessBatch(first.applet, batch[1..]) == Outcome(first.applet, []);
    var out := ProcessBatch(s.applet, batch);
    assert out.commands == first.commands + [];
    assert out.commands[1..] == [];
  }
}
